=== FILE: README.md ===
# Mapette overlay filters — a Dafny model

Mapette is a map viewer. It draws redlining districts, broadband coverage and
keyword matches as GeoJSON overlays. Two small pure cores are modelled here.
Both are stable filters over GeoJSON feature collections (RFC 7946, section 3.3).

* **Client overlay reconciliation** (`client/src/utils/overlay.ts`), module `Overlay`.
  `overlayData` returns a payload unchanged when its `type` member is exactly
  `"FeatureCollection"`, and `undefined` for any other value. It throws a
  TypeError on `undefined` or `null`.
  `filterGeoJSONData` keeps the features whose key `STATEFP + COUNTYFP` is in the
  broadband table and copies every other top-level member.
  `broadbandOverlay` applies that filter to the static county dataset, which is
  a parameter of the model.
  Values of TypeScript type `any` are modelled by `JsValues.Json`, together with
  JavaScript member access (`Get`, `OptionalGet`).
* **Server feature filtering** (`GeoJSONObject.java`), module `ServerGeoJSON`.
  `filterData` keeps the features whose first position `coordinates[0][0][0]`,
  read as `[longitude, latitude]`, lies in a closed box.
  `filterKeyWords` keeps the features whose `area_description_data` has a value
  containing the keyword.
  A Java `null` is `None`.
  An exception that escapes is a `Failure` (`Results.Result`).
  The `try`/`catch` turns an `IndexOutOfBoundsException` into "excluded".
* Shared modules:
  * `StableFilter` is the stable filter with its laws: subsequence, exact
    membership and multiplicity, idempotence, monotonicity.
  * `StreamFilter` is a Java stream filter whose test may throw.
  * `JavaStrings` is `String.contains`, proved equal to a reference substring
    definition.

In these places the code behaves in ways that are easy to misread; the model
follows the code:

* A feature missing only `COUNTYFP` is not excluded by construction. JavaScript's
  `+` looks it up under the key `STATEFP + "undefined"`
  (`Overlay.MissingCountyCodeLooksUpUndefined`).
* `overlayData` is not total. Reading `type` of `undefined` or `null` throws a
  TypeError. `client/src/components/Mapbox.tsx:97` calls `overlayData()` with no
  argument, so that call always throws (`Overlay.OverlayDataWithoutArgumentThrows`).
* On the server, a null `geometry` is excluded. A null `coordinates` list throws a
  NullPointerException, and so does any null list or entry met on the way to the
  first position (`ServerGeoJSON.WithinBoundsThrowsIff`). The latitude is unboxed
  only when the longitude is already in range.
* A null `area_description_data` map throws (`ServerGeoJSON.NullDescriptionMapThrows`).
  So does a null value reached before a match (`ServerGeoJSON.WithDescriptionThrowsIff`).
* With the empty keyword, a feature is kept iff it has properties and a
  non-null, non-empty description map whose first value is non-null
  (`ServerGeoJSON.WithDescriptionEmptyKeyword`). A null first value is not just
  dropped: it throws a NullPointerException (`ServerGeoJSON.WithDescriptionThrowsIff`).

## Model

| member | source | states |
|---|---|---|
| `StableFilter.Filter` | client/src/utils/overlay.ts:62-68 | the filtered sequence is no longer than the input, all its elements pass the predicate, and all come from the input |
| `StableFilter.FilterIsSubsequence` | client/src/utils/overlay.ts:62-68 | the output is an order-preserving subsequence of the input |
| `StableFilter.FilterMembers` | client/src/utils/overlay.ts:62-68 | an element is in the output iff it is in the input and passes |
| `StableFilter.FilterMultiplicity` | client/src/utils/overlay.ts:62-68 | every passing occurrence is kept exactly once and no failing one is kept |
| `StableFilter.FilterKeepsAll` | client/src/utils/overlay.ts:62-68 | an input whose elements all pass is returned unchanged |
| `StableFilter.FilterKeepsNone` | client/src/utils/overlay.ts:62-68 | an input with no passing element gives the empty sequence |
| `StableFilter.FilterIdempotent` | client/src/utils/overlay.ts:62-68 | filtering twice with one predicate equals filtering once |
| `StableFilter.FilterMonotone` | client/src/utils/overlay.ts:62-68 | a predicate implied by another keeps a supersequence of what the other keeps |
| `StableFilter.FilterExtensional` | client/src/utils/overlay.ts:62-68 | predicates that agree on the input give the same output |
| `StreamFilter.TryFilter` | server/src/main/java/edu/brown/cs/student/main/server/handlers/GeoJSONObject.java:46-49 | a completed stream collection is no longer than its input |
| `StreamFilter.TryFilterSucceedsIff` | server/src/main/java/edu/brown/cs/student/main/server/handlers/GeoJSONObject.java:46-49 | the collection completes iff no element's test throws |
| `StreamFilter.TryFilterIsFilter` | server/src/main/java/edu/brown/cs/student/main/server/handlers/GeoJSONObject.java:46-49 | a completed collection is the stable filter by the tests' answers |
| `StreamFilter.TryFilterFirstFailure` | server/src/main/java/edu/brown/cs/student/main/server/handlers/GeoJSONObject.java:46-49 | an escaping exception is that of the first element whose test throws, in encounter order |
| `JavaStrings.ContainsIffSubstring` | server/src/main/java/edu/brown/cs/student/main/server/handlers/GeoJSONObject.java:85 | the scanning `contains` holds iff the keyword occurs at some index of the description |
| `JavaStrings.ContainsEmpty` | server/src/main/java/edu/brown/cs/student/main/server/handlers/GeoJSONObject.java:85 | every string contains the empty string |
| `JsValues.Get` | client/src/utils/overlay.ts:83 | member access throws exactly on `undefined` and `null`; an object's own member is returned when present, and any defined result is such a member |
| `JsValues.OptionalGet` | client/src/utils/overlay.ts:63-64 | `?.` returns an object's own member when present, and any defined result is such a member, so a nullish receiver gives `undefined` |
| `Overlay.IsFeatureCollection` | client/src/utils/overlay.ts:82-84 | throws exactly on a nullish value; answers true exactly for an object whose own `type` member is the string "FeatureCollection" |
| `Overlay.OverlayData` | client/src/utils/overlay.ts:91-93 | throws exactly on a nullish value; returns the payload itself, never a new object, exactly when it is tagged "FeatureCollection"; returns `undefined` for any other tag |
| `Overlay.OverlayDataWithoutArgumentThrows` | client/src/utils/overlay.ts:82-93 | `overlayData(undefined)` throws a TypeError, which is what the no-argument call in Mapbox.tsx does |
| `Overlay.OverlayDataTagIsExact` | client/src/utils/overlay.ts:82-93 | a case-mismatched tag, a missing tag or a bare string is rejected as `undefined` |
| `Overlay.Concat` | client/src/utils/overlay.ts:67 | for string, `undefined`, `null` or boolean codes, JavaScript `+` yields a string iff either operand is a string, and then it is the state code's text followed by the county code's text |
| `Overlay.Kept` | client/src/utils/overlay.ts:62-68 | for a non-null feature with string, `undefined`, `null` or boolean codes, the filter callback accepts it iff one of its codes is a string and the JavaScript concatenation of the state code and the county code is a table key; it accepts no feature whose codes are both non-strings |
| `Overlay.FilterGeoJSONData` | client/src/utils/overlay.ts:60-75 | the result is a collection with the same members; every member except `features` is unchanged, the tag included; each kept feature comes from the input and has its key in the table |
| `Overlay.FilterGeoJSONDataSubsequence` | client/src/utils/overlay.ts:62-68 | the kept features are an order-preserving subsequence of the input features |
| `Overlay.FilterGeoJSONDataKeepsExactly` | client/src/utils/overlay.ts:62-68 | a feature is kept iff it is an input feature whose key is in the table, with each occurrence kept once |
| `Overlay.KeptByFipsCodes` | client/src/utils/overlay.ts:63-67 | with string codes, a feature is kept iff `STATEFP` followed by `COUNTYFP` is a key of the table |
| `Overlay.NoStringCodeNeverKept` | client/src/utils/overlay.ts:63-67 | a feature whose codes are each `undefined`, `null` or a boolean, for example with null `properties`, is never kept: `+` then adds numbers |
| `Overlay.MissingCountyCodeLooksUpUndefined` | client/src/utils/overlay.ts:63-67 | a feature with `STATEFP` "44" and no `COUNTYFP` is kept by a table holding "44undefined" |
| `Overlay.FilterGeoJSONDataIdempotent` | client/src/utils/overlay.ts:60-75 | filtering an already filtered collection against the same table returns the same collection |
| `Overlay.FilterGeoJSONDataMonotone` | client/src/utils/overlay.ts:62-68 | a table with more keys keeps a supersequence of the features a smaller table keeps |
| `Overlay.FilterGeoJSONDataEmptyTable` | client/src/utils/overlay.ts:62-68 | the empty table keeps no feature |
| `Overlay.FilterGeoJSONDataExample` | client/src/utils/overlay.ts:60-75 | features keyed "1"+"2" and "3"+"4" filtered against a table holding only "12" leave exactly the first |
| `Overlay.BroadbandOverlay` | client/src/utils/overlay.ts:99-103 | for any non-nullish dataset, defined iff the dataset is tagged "FeatureCollection", and then it is the dataset filtered by the table; an untagged dataset need not have a `features` array |
| `Overlay.BroadbandOverlayUntagged` | client/src/utils/overlay.ts:99-103 | a dataset tagged "Topology" gives `undefined` |
| `Overlay.BroadbandOverlayAfterClear` | client/src/utils/overlay.ts:99-103 | after the table is cleared the broadband overlay has no features |
| `Overlay.BroadbandOverlayGrowsWithTable` | client/src/utils/overlay.ts:99-103 | inserting a table entry only adds overlay features, in dataset order |
| `Overlay.BroadbandOverlaySingleEntry` | client/src/utils/overlay.ts:99-103 | a one-entry table selects exactly the dataset features with that key |
| `ServerGeoJSON.ReadFirstPoint` | server/src/main/java/edu/brown/cs/student/main/server/handlers/GeoJSONObject.java:101-113 | the `try` block raises IndexOutOfBoundsException iff a list on the path to the latitude is too short with no null before it; it answers true only if the first position has two non-null entries inside the box |
| `ServerGeoJSON.IsFeatureWithinBounds` | server/src/main/java/edu/brown/cs/student/main/server/handlers/GeoJSONObject.java:93-119 | no IndexOutOfBoundsException escapes; a null feature, a null geometry or an empty coordinate list is excluded |
| `ServerGeoJSON.WithinBoundsIff` | server/src/main/java/edu/brown/cs/student/main/server/handlers/GeoJSONObject.java:104-111 | a feature passes iff its first position `(longitude, latitude)` exists and lies in the box, bounds inclusive |
| `ServerGeoJSON.IndexOutOfRangeExcluded` | server/src/main/java/edu/brown/cs/student/main/server/handlers/GeoJSONObject.java:101-118 | an empty inner list or a position with fewer than two entries reads as excluded, not as a crash |
| `ServerGeoJSON.WithinBoundsThrowsIff` | server/src/main/java/edu/brown/cs/student/main/server/handlers/GeoJSONObject.java:97-111 | the test throws iff a null is met on the path to a value it reads, and then the exception is a NullPointerException |
| `ServerGeoJSON.PassesWithinBounds` | server/src/main/java/edu/brown/cs/student/main/server/handlers/GeoJSONObject.java:104-111 | the stream's predicate accepts a feature iff its first position exists and lies in the box |
| `ServerGeoJSON.OnlyFirstPointMatters` | server/src/main/java/edu/brown/cs/student/main/server/handlers/GeoJSONObject.java:104-111 | features with the same first position get the same verdict, whatever their other coordinates |
| `ServerGeoJSON.FilterData` | server/src/main/java/edu/brown/cs/student/main/server/handlers/GeoJSONObject.java:44-56 | a completed result keeps the collection's `type` and has no more features than the input |
| `ServerGeoJSON.FilterDataSucceedsIff` | server/src/main/java/edu/brown/cs/student/main/server/handlers/GeoJSONObject.java:44-56 | `filterData` completes iff the feature list is non-null and no feature's test throws; otherwise it throws a NullPointerException |
| `ServerGeoJSON.FilterDataKeepsExactly` | server/src/main/java/edu/brown/cs/student/main/server/handlers/GeoJSONObject.java:44-56 | the kept features are an order-preserving subsequence of the input holding exactly the features whose first position is in the box, each occurrence kept once |
| `ServerGeoJSON.FilterDataIdempotent` | server/src/main/java/edu/brown/cs/student/main/server/handlers/GeoJSONObject.java:44-56 | filtering the result again with the same box returns it unchanged |
| `ServerGeoJSON.AnyValueContains` | server/src/main/java/edu/brown/cs/student/main/server/handlers/GeoJSONObject.java:84-89 | the loop only throws NullPointerException, and answers true only for a non-empty description list |
| `ServerGeoJSON.AnyValueContainsTrueIff` | server/src/main/java/edu/brown/cs/student/main/server/handlers/GeoJSONObject.java:84-89 | the loop answers true iff some value contains the keyword and no null value comes before it |
| `ServerGeoJSON.AnyValueContainsWithoutNulls` | server/src/main/java/edu/brown/cs/student/main/server/handlers/GeoJSONObject.java:84-89 | with no null values the loop answers whether some value contains the keyword |
| `ServerGeoJSON.AnyValueContainsThrowsIff` | server/src/main/java/edu/brown/cs/student/main/server/handlers/GeoJSONObject.java:84-89 | with a non-null keyword the loop throws iff a null value comes before any value containing the keyword |
| `ServerGeoJSON.IsFeatureWithDescription` | server/src/main/java/edu/brown/cs/student/main/server/handlers/GeoJSONObject.java:76-91 | only NullPointerException can escape; a null feature or null properties gives false |
| `ServerGeoJSON.WithDescriptionIff` | server/src/main/java/edu/brown/cs/student/main/server/handlers/GeoJSONObject.java:76-91 | a feature passes iff it has properties and a description map in which the loop reaches a value containing the keyword |
| `ServerGeoJSON.WithDescriptionWithoutNulls` | server/src/main/java/edu/brown/cs/student/main/server/handlers/GeoJSONObject.java:76-91 | with non-null values the verdict is "some value contains the keyword", so an empty map gives false |
| `ServerGeoJSON.WithDescriptionEmptyKeyword` | server/src/main/java/edu/brown/cs/student/main/server/handlers/GeoJSONObject.java:79-86 | with the empty keyword a feature passes iff it has properties and a non-empty map whose first value is non-null |
| `ServerGeoJSON.WithDescriptionThrowsIff` | server/src/main/java/edu/brown/cs/student/main/server/handlers/GeoJSONObject.java:76-91 | with a non-null keyword the test throws iff the feature has properties and its description map is null or has a null value before any match |
| `ServerGeoJSON.NullDescriptionMapThrows` | server/src/main/java/edu/brown/cs/student/main/server/handlers/GeoJSONObject.java:77-79 | a null `area_description_data` map throws a NullPointerException |
| `ServerGeoJSON.NullKeywordThrows` | server/src/main/java/edu/brown/cs/student/main/server/handlers/GeoJSONObject.java:76-91 | a null keyword completes only for a null feature, null properties or an empty map |
| `ServerGeoJSON.FilterKeyWords` | server/src/main/java/edu/brown/cs/student/main/server/handlers/GeoJSONObject.java:64-74 | a completed result keeps the collection's `type` and has no more features than the input |
| `ServerGeoJSON.FilterKeyWordsSucceedsIff` | server/src/main/java/edu/brown/cs/student/main/server/handlers/GeoJSONObject.java:64-74 | `filterKeyWords` completes iff the feature list is non-null and no feature's test throws; otherwise it throws a NullPointerException |
| `ServerGeoJSON.FilterKeyWordsKeepsExactly` | server/src/main/java/edu/brown/cs/student/main/server/handlers/GeoJSONObject.java:64-74 | the kept features are an order-preserving subsequence of the input holding exactly the features with a reachable matching description, each occurrence kept once |
| `ServerGeoJSON.FilterKeyWordsIdempotent` | server/src/main/java/edu/brown/cs/student/main/server/handlers/GeoJSONObject.java:64-74 | filtering the result again with the same keyword returns it unchanged |

## Left out

- Overlay.FilterGeoJSONData: `STATEFP` and `COUNTYFP` values must be a string, `undefined`, `null` or a boolean. The model does not compute JavaScript's string conversion of numbers, arrays or objects. The model assumes the county dataset stores both codes as strings, as US Census county boundary files do.
- Overlay.FilterGeoJSONData: it assumes the TypeScript parameter type, so `features` is an array of non-null features. A null feature would make `feature.properties` throw.
- Overlay.Concat: number, array and object operands are outside its requires. JavaScript's `+` accepts them (`[4,4] + undefined` is `"4,4undefined"`), but the model does not compute their string conversion.
- Overlay.Kept: it answers false for a null feature and for a number, array or object code. There the source throws a TypeError at `feature.properties`, or may find the converted key in the table. Both cases are outside the collection shape that `Overlay.FilterGeoJSONData` requires.
- Overlay.BroadbandOverlay: a tagged dataset must satisfy the same assumptions, for the same reasons. The dataset must not be `undefined` or `null`, which a parsed JSON module import is not expected to be; reading its `type` would throw.
- JsValues.Get: inherited prototype members such as `length` are not modelled. The client reads only `type`, `features`, `properties`, `STATEFP` and `COUNTYFP`, which no built-in prototype defines.
- `client/src/components/Mapbox.tsx`: hover, click and popup handling is UI wiring over the Mapbox SDK. The model cannot see that SDK. Its calls into the core are `overlayData()` with no argument (line 97), covered by `Overlay.OverlayDataWithoutArgumentThrows`, and `broadbandOverlay(props.mappedData)` (lines 75 and 98), covered by `Overlay.BroadbandOverlay`.
- `client/src/components/MapsGearup.tsx`: React state, asynchronous fetches and markup. The table insert and clear are plain map updates; their effect on the overlay is stated by `Overlay.BroadbandOverlayGrowsWithTable` and `Overlay.BroadbandOverlayAfterClear`. `getFeatureCenter` is imported from Mapbox.tsx but not defined there, so the centroid calculation is not part of this model.
- `client/src/utils/api.ts`: HTTP query-string plumbing over `fetch`.
- `Server.java`: Spark routing and CORS.
- `FilteredDataHandler.java`: file reading and `Double.parseDouble` of query parameters. Its parse runs before its empty-parameters check, so the check never takes effect.
- `KeywordFilterHandler.java`: a one-line delegate to `filterKeyWords`.
- `App.tsx` and `vite-env.d.ts`: Firebase configuration and type declarations.
- The layer paint configurations in overlay.ts (`geoLayer`, `areaLayer`, `broadbandLayer`): declarative styling read by the map SDK.
- Loading `counties.json` and Moshi JSON deserialisation: the county dataset and the server collection are inputs of the model.
- Floating point: coordinates and bounds are `real`, which leaves out NaN, positive infinity and negative infinity. `Double.parseDouble` in the handler accepts "NaN" and "Infinity" for the bounds. Only `<=` and `>=` comparisons are made, and `real` agrees with IEEE doubles on those for finite values.
- Null `Double` bounds passed to `filterData`: the handler always passes parsed values.
- Object identity: Java features and JavaScript features are compared as values. The filters only ever return the very elements they were given.
- The message printed in the `catch` block of `isFeatureWithinBounds`: console output.
- The keys of `area_description_data`: they are never read. The model keeps only the values, in the map's iteration order.
- Strings are sequences of Unicode scalar values. Java and JavaScript strings are UTF-16 and may hold unpaired surrogates, which the model cannot represent.

=== FILE: java_strings.dfy ===
/** `java.lang.String.contains` on non-null receiver and argument. */
module JavaStrings {

  /** `s` begins with `k`. */
  predicate StartsWith(s: string, k: string)
  {
    |k| <= |s| && s[..|k|] == k
  }

  /** Reference definition: `k` occurs in `s` starting at some index. */
  ghost predicate IsSubstring(k: string, s: string)
  {
    exists i :: 0 <= i <= |s| && StartsWith(s[i..], k)
  }

  /** The search `String.contains` performs: try each start position in turn. */
  function Contains(s: string, k: string): bool
    decreases |s|
  {
    StartsWith(s, k) || (|s| > 0 && Contains(s[1..], k))
  }

  lemma {:induction false} ContainsIffSubstring(s: string, k: string)
    ensures Contains(s, k) <==> IsSubstring(k, s)
    decreases |s|
  {
    assert s[0..] == s;
    if |s| > 0 {
      ContainsIffSubstring(s[1..], k);
      if IsSubstring(k, s[1..]) {
        var i :| 0 <= i <= |s[1..]| && StartsWith(s[1..][i..], k);
        assert s[1..][i..] == s[i + 1..];
      }
      if IsSubstring(k, s) && !StartsWith(s, k) {
        var i :| 0 <= i <= |s| && StartsWith(s[i..], k);
        assert i != 0;
        assert s[i..] == s[1..][i - 1..];
      }
    } else {
      if IsSubstring(k, s) {
        var i :| 0 <= i <= |s| && StartsWith(s[i..], k);
        assert s[i..] == s;
      }
    }
  }

  /** Every string contains the empty string. */
  lemma ContainsEmpty(s: string)
    ensures Contains(s, "")
  {
    assert StartsWith(s, "");
  }
}

=== FILE: js_values.dfy ===
/** The JavaScript values a parsed JSON document (or a TypeScript `any`) can
    hold, and the member-access operators the client applies to them. */
module JsValues {
  import opened Results

  datatype Json =
    | Undefined
    | Null
    | Bool(b: bool)
    | Number(n: real)
    | Text(s: string)
    | Array(items: seq<Json>)
    | Object(members: map<string, Json>)

  /** The only error the modelled client code can raise. */
  datatype JsError = TypeError

  predicate IsNullish(v: Json)
  {
    v.Undefined? || v.Null?
  }

  /** `v.name`: a TypeError on `undefined` and `null`; `undefined` for an
      absent member and for primitives and arrays, which carry no own
      members of the names the client reads. */
  function Get(v: Json, name: string): (r: Result<Json, JsError>)
    ensures r.Failure? <==> IsNullish(v)
    ensures r.Success? && r.value != Undefined ==> v.Object? && name in v.members && r.value == v.members[name]
    ensures v.Object? && name in v.members ==> r == Success(v.members[name])
  {
    match v
    case Undefined => Failure(TypeError)
    case Null => Failure(TypeError)
    case Object(m) => Success(if name in m then m[name] else Undefined)
    case _ => Success(Undefined)
  }

  /** `v?.name`: short-circuits to `undefined` on a nullish `v`. */
  function OptionalGet(v: Json, name: string): (r: Json)
    ensures v.Object? && name in v.members ==> r == v.members[name]
    ensures r != Undefined ==> v.Object? && name in v.members && r == v.members[name]
  {
    if IsNullish(v) then Undefined else Get(v, name).value
  }
}

=== FILE: overlay.dfy ===
/** The client's overlay reconciliation: validating a payload as a GeoJSON
    FeatureCollection (RFC 7946, section 3.3), filtering a collection's
    features by their state + county FIPS key against the broadband table,
    and deriving the broadband overlay from the static county dataset. */
module Overlay {
  import opened Results
  import opened JsValues
  import StableFilter

  const FeatureCollectionTag: string := "FeatureCollection"

  /** Reference reading of a valid overlay: an object whose own `type`
      member is exactly the string "FeatureCollection". */
  ghost predicate HasCollectionTag(json: Json)
  {
    json.Object? && "type" in json.members && json.members["type"] == Text(FeatureCollectionTag)
  }

  /** `isFeatureCollection`: `json.type === "FeatureCollection"`; reading a
      member of `undefined` or `null` throws. */
  function IsFeatureCollection(json: Json): (r: Result<bool, JsError>)
    ensures r.Failure? <==> IsNullish(json)
    ensures r == Success(true) <==> HasCollectionTag(json)
  {
    var tag :- Get(json, "type");
    Success(tag == Text(FeatureCollectionTag))
  }

  /** `overlayData`: the payload itself when it is tagged as a collection,
      `undefined` (None) otherwise. */
  function OverlayData(json: Json): (r: Result<Option<Json>, JsError>)
    ensures r.Failure? <==> IsNullish(json)
    ensures r == Success(Some(json)) <==> HasCollectionTag(json)
    ensures r.Success? && !HasCollectionTag(json) ==> r.value == None
    ensures r.Success? && r.value.Some? ==> r.value.value == json
  {
    var valid :- IsFeatureCollection(json);
    Success(if valid then Some(json) else None)
  }

  /** Calling `overlayData()` with no argument reads `type` of `undefined`. */
  lemma OverlayDataWithoutArgumentThrows()
    ensures OverlayData(Undefined) == Failure(TypeError)
  {
  }

  /** The tag comparison is exact: a case-mismatched tag is not a collection. */
  lemma OverlayDataTagIsExact()
    ensures OverlayData(Object(map["type" := Text("featurecollection")])) == Success(None)
    ensures OverlayData(Object(map[])) == Success(None)
    ensures OverlayData(Text(FeatureCollectionTag)) == Success(None)
  {
    assert "featurecollection" != FeatureCollectionTag by {
      assert "featurecollection"[0] != FeatureCollectionTag[0];
    }
  }

  /** The kinds of property value whose JavaScript string conversion the
      model computes. */
  predicate IsModelledCode(v: Json)
  {
    v.Text? || v.Undefined? || v.Null? || v.Bool?
  }

  /** JavaScript `String(v)` for a modelled code. */
  function CodeString(v: Json): string
    requires IsModelledCode(v)
  {
    if v.Text? then v.s
    else if v.Undefined? then "undefined"
    else if v.Null? then "null"
    else if v.b then "true"
    else "false"
  }

  /** JavaScript `a + b`: string concatenation when either operand is a
      string, numeric addition otherwise. A number is never a key of a
      `Map<string, string>`, so that case is None. */
  function Concat(a: Json, b: Json): (r: Option<string>)
    requires IsModelledCode(a) && IsModelledCode(b)
    ensures r.Some? <==> a.Text? || b.Text?
    ensures r.Some? ==> && |r.value| == |CodeString(a)| + |CodeString(b)|
                        && r.value[..|CodeString(a)|] == CodeString(a)
                        && r.value[|CodeString(a)|..] == CodeString(b)
    ensures a.Text? && b.Text? ==> r == Some(a.s + b.s)
  {
    if a.Text? || b.Text? then Some(CodeString(a) + CodeString(b)) else None
  }

  /** `feature.properties?.<name>`. A nullish feature would throw; the
      collection shape rules it out, and this total reading answers
      `undefined` for it. */
  function Code(feature: Json, name: string): Json
  {
    match Get(feature, "properties")
    case Failure(_) => Undefined
    case Success(properties) => OptionalGet(properties, name)
  }

  const StateKey: string := "STATEFP"
  const CountyKey: string := "COUNTYFP"

  /** A feature the model can evaluate the filter callback on. */
  predicate IsFeatureShaped(feature: Json)
  {
    && !IsNullish(feature)
    && IsModelledCode(Code(feature, StateKey))
    && IsModelledCode(Code(feature, CountyKey))
  }

  /** The lookup key `STATEFP + COUNTYFP`, state first. */
  function KeyOf(feature: Json): Option<string>
    requires IsFeatureShaped(feature)
  {
    Concat(Code(feature, StateKey), Code(feature, CountyKey))
  }

  /** The filter callback: `data.has(statefp + countyfp)`. */
  predicate Kept(table: map<string, string>, feature: Json)
    ensures Kept(table, feature) ==> Code(feature, StateKey).Text? || Code(feature, CountyKey).Text?
    ensures IsFeatureShaped(feature) ==>
              (Kept(table, feature) <==>
                 && (Code(feature, StateKey).Text? || Code(feature, CountyKey).Text?)
                 && CodeString(Code(feature, StateKey)) + CodeString(Code(feature, CountyKey)) in table)
  {
    IsFeatureShaped(feature) && KeyOf(feature).Some? && KeyOf(feature).value in table
  }

  function KeptBy(table: map<string, string>): Json -> bool
  {
    feature => Kept(table, feature)
  }

  /** What the `GeoJSON.FeatureCollection` parameter type guarantees: an
      object whose `features` member is an array of (non-nullish) features. */
  predicate IsCollectionShaped(geo: Json)
  {
    && geo.Object?
    && "features" in geo.members
    && geo.members["features"].Array?
    && forall feature :: feature in geo.members["features"].items ==> IsFeatureShaped(feature)
  }

  function Features(geo: Json): seq<Json>
    requires IsCollectionShaped(geo)
  {
    geo.members["features"].items
  }

  /** `filterGeoJSONData`: `{...geojsonData, features: filteredFeatures}`. */
  function FilterGeoJSONData(geo: Json, table: map<string, string>): (r: Json)
    requires IsCollectionShaped(geo)
    ensures IsCollectionShaped(r)
    ensures r.members.Keys == geo.members.Keys
    ensures forall k :: k in geo.members && k != "features" ==> r.members[k] == geo.members[k]
    ensures HasCollectionTag(r) <==> HasCollectionTag(geo)
    ensures forall feature :: feature in Features(r) ==> feature in Features(geo) && Kept(table, feature)
  {
    Object(geo.members["features" := Array(StableFilter.Filter(KeptBy(table), Features(geo)))])
  }

  /** The kept features keep their relative order. */
  lemma FilterGeoJSONDataSubsequence(geo: Json, table: map<string, string>)
    requires IsCollectionShaped(geo)
    ensures StableFilter.IsSubsequence(Features(FilterGeoJSONData(geo, table)), Features(geo))
  {
    StableFilter.FilterIsSubsequence(KeptBy(table), Features(geo));
  }

  /** Exactly the features whose key is in the table are kept, each
      occurrence once. */
  lemma FilterGeoJSONDataKeepsExactly(geo: Json, table: map<string, string>)
    requires IsCollectionShaped(geo)
    ensures forall feature :: feature in Features(FilterGeoJSONData(geo, table))
                              <==> feature in Features(geo) && Kept(table, feature)
    ensures forall feature :: multiset(Features(FilterGeoJSONData(geo, table)))[feature]
                              == if Kept(table, feature) then multiset(Features(geo))[feature] else 0
  {
    StableFilter.FilterMembers(KeptBy(table), Features(geo));
    StableFilter.FilterMultiplicity(KeptBy(table), Features(geo));
  }

  /** With string codes the key is `STATEFP` followed by `COUNTYFP`. */
  lemma KeptByFipsCodes(table: map<string, string>, feature: Json, state: string, county: string)
    requires !IsNullish(feature)
    requires Code(feature, StateKey) == Text(state) && Code(feature, CountyKey) == Text(county)
    ensures Kept(table, feature) <==> state + county in table
  {
  }

  /** A feature with neither code a string (for instance with null or
      missing `properties`) is never kept. */
  lemma NoStringCodeNeverKept(table: map<string, string>, feature: Json)
    requires IsFeatureShaped(feature)
    requires !Code(feature, StateKey).Text? && !Code(feature, CountyKey).Text?
    ensures !Kept(table, feature)
  {
  }

  /** A feature lacking only `COUNTYFP` is looked up under its state code
      followed by the text "undefined", so it is kept when that key is in
      the table. */
  lemma MissingCountyCodeLooksUpUndefined()
    ensures var feature := Object(map["properties" := Object(map[StateKey := Text("44")])]);
            Kept(map["44undefined" := "81.2"], feature)
  {
    var feature := Object(map["properties" := Object(map[StateKey := Text("44")])]);
    assert Code(feature, CountyKey) == Undefined;
    assert KeyOf(feature) == Some("44" + "undefined");
    assert "44" + "undefined" == "44undefined";
  }

  /** Filtering an already filtered collection changes nothing. */
  lemma FilterGeoJSONDataIdempotent(geo: Json, table: map<string, string>)
    requires IsCollectionShaped(geo)
    ensures FilterGeoJSONData(FilterGeoJSONData(geo, table), table) == FilterGeoJSONData(geo, table)
  {
    StableFilter.FilterIdempotent(KeptBy(table), Features(geo));
  }

  /** A table with more keys keeps a supersequence of the features. */
  lemma FilterGeoJSONDataMonotone(geo: Json, small: map<string, string>, large: map<string, string>)
    requires IsCollectionShaped(geo)
    requires small.Keys <= large.Keys
    ensures StableFilter.IsSubsequence(Features(FilterGeoJSONData(geo, small)),
                                       Features(FilterGeoJSONData(geo, large)))
  {
    StableFilter.FilterMonotone(KeptBy(small), KeptBy(large), Features(geo));
  }

  /** The empty table keeps nothing. */
  lemma FilterGeoJSONDataEmptyTable(geo: Json)
    requires IsCollectionShaped(geo)
    ensures Features(FilterGeoJSONData(geo, map[])) == []
  {
    StableFilter.FilterKeepsNone(KeptBy(map[]), Features(geo));
  }

  /** Features keyed "1"+"2" and "3"+"4" against a table holding only "12":
      only the first survives. */
  lemma FilterGeoJSONDataExample()
    ensures var first := Object(map["properties" := Object(map[StateKey := Text("1"), CountyKey := Text("2")])]);
            var second := Object(map["properties" := Object(map[StateKey := Text("3"), CountyKey := Text("4")])]);
            var geo := Object(map["type" := Text(FeatureCollectionTag), "features" := Array([first, second])]);
            IsCollectionShaped(geo) && Features(FilterGeoJSONData(geo, map["12" := "90.1"])) == [first]
  {
    var first := Object(map["properties" := Object(map[StateKey := Text("1"), CountyKey := Text("2")])]);
    var second := Object(map["properties" := Object(map[StateKey := Text("3"), CountyKey := Text("4")])]);
    var geo := Object(map["type" := Text(FeatureCollectionTag), "features" := Array([first, second])]);
    assert Code(first, StateKey) == Text("1") && Code(first, CountyKey) == Text("2");
    assert Code(second, StateKey) == Text("3") && Code(second, CountyKey) == Text("4");
    assert "1" + "2" == "12";
    assert Kept(map["12" := "90.1"], first);
    assert ("3" + "4")[0] != "12"[0];
    assert !Kept(map["12" := "90.1"], second);
    var keep := KeptBy(map["12" := "90.1"]);
    assert [first, second][1..] == [second];
    assert StableFilter.Filter(keep, [second]) == [];
    assert StableFilter.Filter(keep, [first, second]) == [first];
  }

  /** `broadbandOverlay`, with the static county dataset as a parameter:
      the dataset filtered by the table when it is tagged as a collection,
      `undefined` otherwise. */
  function BroadbandOverlay(countyState: Json, table: map<string, string>): (r: Option<Json>)
    requires !IsNullish(countyState)
    requires HasCollectionTag(countyState) ==> IsCollectionShaped(countyState)
    ensures r.Some? <==> HasCollectionTag(countyState)
    ensures r.Some? ==> r.value == FilterGeoJSONData(countyState, table)
  {
    if IsFeatureCollection(countyState) == Success(true)
    then Some(FilterGeoJSONData(countyState, table))
    else None
  }

  /** A dataset tagged otherwise, here a TopoJSON topology, gives no overlay. */
  lemma BroadbandOverlayUntagged(table: map<string, string>)
    ensures BroadbandOverlay(Object(map["type" := Text("Topology")]), table) == None
  {
    assert "Topology" != FeatureCollectionTag by {
      assert "Topology"[0] != FeatureCollectionTag[0];
    }
  }

  /** After the table is cleared the broadband overlay has no features. */
  lemma BroadbandOverlayAfterClear(countyState: Json)
    requires !IsNullish(countyState)
    requires HasCollectionTag(countyState) ==> IsCollectionShaped(countyState)
    ensures var r := BroadbandOverlay(countyState, map[]);
            r.Some? ==> Features(r.value) == []
  {
    if HasCollectionTag(countyState) {
      FilterGeoJSONDataEmptyTable(countyState);
    }
  }

  /** Adding a table entry only adds overlay features, in dataset order. */
  lemma BroadbandOverlayGrowsWithTable(countyState: Json, table: map<string, string>, key: string, value: string)
    requires HasCollectionTag(countyState)
    requires IsCollectionShaped(countyState)
    ensures StableFilter.IsSubsequence(Features(BroadbandOverlay(countyState, table).value),
                                       Features(BroadbandOverlay(countyState, table[key := value]).value))
  {
    FilterGeoJSONDataMonotone(countyState, table, table[key := value]);
  }

  /** A one-entry table selects exactly the dataset features with that key. */
  lemma BroadbandOverlaySingleEntry(countyState: Json, key: string, value: string)
    requires HasCollectionTag(countyState)
    requires IsCollectionShaped(countyState)
    ensures forall feature :: feature in Features(BroadbandOverlay(countyState, map[key := value]).value)
                              <==> feature in Features(countyState) && KeyOf(feature) == Some(key)
  {
    FilterGeoJSONDataKeepsExactly(countyState, map[key := value]);
  }
}

=== FILE: results.dfy ===
/** Failure-compatible wrappers shared by the client and server models.
    `Option` stands for a nullable reference (None is `null` / `undefined`),
    `Result` for a computation that may throw. */
module Results {

  datatype Option<+T> = None | Some(value: T)

  /** A value or the exception that was thrown instead; usable with `:-`. */
  datatype Result<+T, +E> = Success(value: T) | Failure(error: E) {

    predicate IsFailure() {
      Failure?
    }

    function PropagateFailure<U>(): Result<U, E>
      requires Failure?
    {
      Failure(error)
    }

    function Extract(): T
      requires Success?
    {
      value
    }
  }
}

=== FILE: server_geojson.dfy ===
/** The server's `GeoJSONObject`: the redlining feature collection and its
    two filters, by bounding box on the first position and by keyword in the
    area descriptions. Java `null` is `None`; an exception that escapes is a
    `Failure`. */
module ServerGeoJSON {
  import opened Results
  import StableFilter
  import StreamFilter
  import JavaStrings

  datatype JavaException = NullPointerException | IndexOutOfBoundsException

  /** `List<Double>`: `[longitude, latitude, ...]` (RFC 7946, section 3.1.1);
      entries may be null. */
  type Position = seq<Option<real>>
  type Ring = seq<Option<Position>>
  type Polygon = seq<Option<Ring>>
  /** `List<List<List<List<Double>>>>`: MultiPolygon nesting (RFC 7946, section 3.1.7). */
  type Coordinates = seq<Option<Polygon>>

  /** `kind` is the JSON `type` member. */
  datatype Geometry = Geometry(kind: Option<string>, coordinates: Option<Coordinates>)

  /** `areaDescriptionData` holds the values of `area_description_data` in
      the map's iteration order; its keys are never read. */
  datatype Properties = Properties(
    city: Option<string>,
    holcGrade: Option<string>,
    areaDescriptionData: Option<seq<Option<string>>>)

  datatype Feature = Feature(kind: Option<string>, geometry: Option<Geometry>, properties: Option<Properties>)

  datatype GeoJSONObject = GeoJSONObject(kind: Option<string>, features: Option<seq<Option<Feature>>>)

  /** The inclusive box `filterData` is called with. */
  datatype Bounds = Bounds(minLat: real, maxLat: real, minLong: real, maxLong: real) {
    predicate Contains(longitude: real, latitude: real)
    {
      minLong <= longitude <= maxLong && minLat <= latitude <= maxLat
    }
  }

  /** `List.get(i)`. */
  function At<T>(xs: seq<T>, i: nat): Result<T, JavaException>
  {
    if i < |xs| then Success(xs[i]) else Failure(IndexOutOfBoundsException)
  }

  /** Dereferencing (or unboxing) a possibly null reference. */
  function Deref<T>(x: Option<T>): Result<T, JavaException>
  {
    if x.Some? then Success(x.value) else Failure(NullPointerException)
  }

  /** The `try` block of `isFeatureWithinBounds`: read
      `coordinates.get(0).get(0).get(0)`, then its entries 0 and 1, then
      evaluate the short-circuit bounds test left to right. */
  function ReadFirstPoint(coordinates: Coordinates, b: Bounds): (r: Result<bool, JavaException>)
    requires |coordinates| > 0
    ensures r == Failure(IndexOutOfBoundsException) <==> IndexOutOfRangeOnPath(coordinates)
    ensures r == Success(true) ==> && coordinates[0].Some? && |coordinates[0].value| > 0
                                   && coordinates[0].value[0].Some? && |coordinates[0].value[0].value| > 0
                                   && coordinates[0].value[0].value[0].Some?
                                   && var p := coordinates[0].value[0].value[0].value;
                                      |p| >= 2 && p[0].Some? && p[1].Some? && b.Contains(p[0].value, p[1].value)
  {
    // coordinates.get(0) cannot go out of range: the caller checked isEmpty()
    var polygon :- Deref(coordinates[0]);
    var r :- At(polygon, 0);
    var ring :- Deref(r);
    var q :- At(ring, 0);
    var firstPoint :- Deref(q);
    var longitude :- At(firstPoint, 0);
    var latitude :- At(firstPoint, 1);
    var lon :- Deref(longitude);
    if !(lon >= b.minLong && lon <= b.maxLong) then Success(false)
    else
      var lat :- Deref(latitude);
      Success(lat >= b.minLat && lat <= b.maxLat)
  }

  function IsFeatureWithinBounds(feature: Option<Feature>, b: Bounds): (r: Result<bool, JavaException>)
    ensures r != Failure(IndexOutOfBoundsException)
    ensures feature.None? || feature.value.geometry.None? ==> r == Success(false)
    ensures feature.Some? && feature.value.geometry.Some? && feature.value.geometry.value.coordinates == Some([])
            ==> r == Success(false)
  {
    if feature.None? || feature.value.geometry.None? then Success(false)
    else match feature.value.geometry.value.coordinates
      case None => Failure(NullPointerException)
      case Some(coordinates) =>
        if |coordinates| == 0 then Success(false)
        else
          // the catch turns an IndexOutOfBoundsException into false
          var tried := ReadFirstPoint(coordinates, b);
          if tried == Failure(IndexOutOfBoundsException) then Success(false) else tried
  }

  /** Reference: the list `coordinates[0][0][0]` when every list on the way
      to it is present, non-null and non-empty. */
  ghost function FirstPointList(feature: Option<Feature>): Option<Position>
  {
    if feature.None? || feature.value.geometry.None? || feature.value.geometry.value.coordinates.None? then None
    else
      var cs := feature.value.geometry.value.coordinates.value;
      if |cs| == 0 || cs[0].None? then None
      else if |cs[0].value| == 0 || cs[0].value[0].None? then None
      else if |cs[0].value[0].value| == 0 || cs[0].value[0].value[0].None? then None
      else Some(cs[0].value[0].value[0].value)
  }

  /** Reference: the first position as `(longitude, latitude)`. */
  ghost function FirstPosition(feature: Option<Feature>): Option<(real, real)>
  {
    var p := FirstPointList(feature);
    if p.Some? && |p.value| >= 2 && p.value[0].Some? && p.value[1].Some?
    then Some((p.value[0].value, p.value[1].value))
    else None
  }

  /** Reference: the first position exists and lies in the closed box. */
  ghost predicate FirstPositionIn(feature: Option<Feature>, b: Bounds)
  {
    FirstPosition(feature).Some? && b.Contains(FirstPosition(feature).value.0, FirstPosition(feature).value.1)
  }

  /** A feature passes exactly when its first position lies in the closed box. */
  lemma WithinBoundsIff(feature: Option<Feature>, b: Bounds)
    ensures IsFeatureWithinBounds(feature, b) == Success(true)
            <==> FirstPosition(feature).Some? && b.Contains(FirstPosition(feature).value.0, FirstPosition(feature).value.1)
  {
  }

  /** Reference: some list on the path to the first position's latitude is
      too short, with no null met before it. */
  ghost predicate IndexOutOfRangeOnPath(cs: Coordinates)
  {
    && |cs| > 0 && cs[0].Some?
    && (|| |cs[0].value| == 0
        || (&& cs[0].value[0].Some?
            && (|| |cs[0].value[0].value| == 0
                || (cs[0].value[0].value[0].Some? && |cs[0].value[0].value[0].value| < 2))))
  }

  /** An out-of-range index is caught and reads as "excluded". */
  lemma IndexOutOfRangeExcluded(feature: Option<Feature>, b: Bounds)
    requires feature.Some? && feature.value.geometry.Some? && feature.value.geometry.value.coordinates.Some?
    requires IndexOutOfRangeOnPath(feature.value.geometry.value.coordinates.value)
    ensures IsFeatureWithinBounds(feature, b) == Success(false)
  {
  }

  /** Reference: a null met on the way to a value the test reads. The
      latitude is unboxed only once the longitude is inside the box. */
  ghost predicate NullOnPath(feature: Option<Feature>, b: Bounds)
  {
    && feature.Some? && feature.value.geometry.Some?
    && var coordinates := feature.value.geometry.value.coordinates;
       || coordinates.None?
       || (&& |coordinates.value| > 0
           && var cs := coordinates.value;
              || cs[0].None?
              || (&& |cs[0].value| > 0
                  && (|| cs[0].value[0].None?
                      || (&& |cs[0].value[0].value| > 0
                          && (|| cs[0].value[0].value[0].None?
                              || (&& |cs[0].value[0].value[0].value| >= 2
                                  && var p := cs[0].value[0].value[0].value;
                                     || p[0].None?
                                     || (b.minLong <= p[0].value <= b.maxLong && p[1].None?)))))))
  }

  /** The test throws (a NullPointerException) exactly on a null on the path. */
  lemma WithinBoundsThrowsIff(feature: Option<Feature>, b: Bounds)
    ensures IsFeatureWithinBounds(feature, b).Failure? <==> NullOnPath(feature, b)
    ensures IsFeatureWithinBounds(feature, b).Failure? ==> IsFeatureWithinBounds(feature, b).error == NullPointerException
  {
  }

  /** Only the first position matters: the rest of the geometry is never read. */
  lemma OnlyFirstPointMatters(f1: Option<Feature>, f2: Option<Feature>, b: Bounds)
    requires FirstPointList(f1).Some? && FirstPointList(f1) == FirstPointList(f2)
    ensures IsFeatureWithinBounds(f1, b) == IsFeatureWithinBounds(f2, b)
  {
  }

  function WithinBoundsTest(b: Bounds): Option<Feature> -> Result<bool, JavaException>
  {
    feature => IsFeatureWithinBounds(feature, b)
  }

  /** `filterData(minLat, maxLat, minLong, maxLong)`. */
  function FilterData(obj: GeoJSONObject, minLat: real, maxLat: real, minLong: real, maxLong: real)
    : (r: Result<GeoJSONObject, JavaException>)
    ensures r.Success? ==> obj.features.Some? && r.value.features.Some?
    ensures r.Success? ==> r.value.kind == obj.kind
    ensures r.Success? ==> |r.value.features.value| <= |obj.features.value|
  {
    match obj.features
    case None => Failure(NullPointerException)
    case Some(features) =>
      var kept :- StreamFilter.TryFilter(WithinBoundsTest(Bounds(minLat, maxLat, minLong, maxLong)), features);
      Success(GeoJSONObject(obj.kind, Some(kept)))
  }

  /** `filterData` completes iff the list is non-null and no feature's test
      throws; otherwise the exception is a NullPointerException. */
  lemma FilterDataSucceedsIff(obj: GeoJSONObject, minLat: real, maxLat: real, minLong: real, maxLong: real)
    ensures var r := FilterData(obj, minLat, maxLat, minLong, maxLong);
            && (r.Success? <==> obj.features.Some? && forall i :: 0 <= i < |obj.features.value| ==>
                  IsFeatureWithinBounds(obj.features.value[i], Bounds(minLat, maxLat, minLong, maxLong)).Success?)
            && (r.Failure? ==> r.error == NullPointerException)
  {
    var test := WithinBoundsTest(Bounds(minLat, maxLat, minLong, maxLong));
    if obj.features.Some? {
      StreamFilter.TryFilterSucceedsIff(test, obj.features.value);
      if StreamFilter.TryFilter(test, obj.features.value).Failure? {
        StreamFilter.TryFilterFirstFailure(test, obj.features.value);
      }
    }
  }

  /** The kept features are, in input order, exactly those whose first
      position lies in the box. */
  lemma FilterDataKeepsExactly(obj: GeoJSONObject, minLat: real, maxLat: real, minLong: real, maxLong: real)
    requires FilterData(obj, minLat, maxLat, minLong, maxLong).Success?
    ensures var kept := FilterData(obj, minLat, maxLat, minLong, maxLong).value.features.value;
            && StableFilter.IsSubsequence(kept, obj.features.value)
            && (forall f :: f in kept <==> f in obj.features.value && FirstPositionIn(f, Bounds(minLat, maxLat, minLong, maxLong)))
            && (forall f :: multiset(kept)[f] ==
                  if FirstPositionIn(f, Bounds(minLat, maxLat, minLong, maxLong)) then multiset(obj.features.value)[f] else 0)
  {
    var b := Bounds(minLat, maxLat, minLong, maxLong);
    var test := WithinBoundsTest(b);
    var fs := obj.features.value;
    var kept := FilterData(obj, minLat, maxLat, minLong, maxLong).value.features.value;
    StreamFilter.TryFilterIsFilter(test, fs);
    assert kept == StableFilter.Filter(StreamFilter.Passes(test), fs);
    StableFilter.FilterIsSubsequence(StreamFilter.Passes(test), fs);
    StableFilter.FilterMembers(StreamFilter.Passes(test), fs);
    StableFilter.FilterMultiplicity(StreamFilter.Passes(test), fs);
    PassesWithinBounds(b);
    forall f
      ensures multiset(kept)[f] == if FirstPositionIn(f, b) then multiset(fs)[f] else 0
    {
      assert StreamFilter.Passes(test)(f) <==> FirstPositionIn(f, b);
    }
  }

  lemma PassesWithinBounds(b: Bounds)
    ensures forall f :: StreamFilter.Passes(WithinBoundsTest(b))(f) <==> FirstPositionIn(f, b)
  {
    forall f
      ensures StreamFilter.Passes(WithinBoundsTest(b))(f) <==> FirstPositionIn(f, b)
    {
      WithinBoundsIff(f, b);
    }
  }

  /** Filtering the result again by the same box returns it unchanged. */
  lemma FilterDataIdempotent(obj: GeoJSONObject, minLat: real, maxLat: real, minLong: real, maxLong: real)
    requires FilterData(obj, minLat, maxLat, minLong, maxLong).Success?
    ensures var r := FilterData(obj, minLat, maxLat, minLong, maxLong).value;
            FilterData(r, minLat, maxLat, minLong, maxLong) == Success(r)
  {
    var test := WithinBoundsTest(Bounds(minLat, maxLat, minLong, maxLong));
    var kept := FilterData(obj, minLat, maxLat, minLong, maxLong).value.features.value;
    StreamFilter.TryFilterIsFilter(test, obj.features.value);
    StreamFilter.TryFilterSucceedsIff(test, kept);
    StreamFilter.TryFilterIsFilter(test, kept);
    StableFilter.FilterIdempotent(StreamFilter.Passes(test), obj.features.value);
  }

  /** The `for` loop of `isFeatureWithDescription`: the first value that
      contains the keyword answers true; a null value or keyword met first
      throws. */
  function AnyValueContains(values: seq<Option<string>>, keyWord: Option<string>): (r: Result<bool, JavaException>)
    ensures r.Failure? ==> r.error == NullPointerException
    ensures r == Success(true) ==> |values| > 0
  {
    if |values| == 0 then Success(false)
    else
      var description :- Deref(values[0]);
      var k :- Deref(keyWord);
      if JavaStrings.Contains(description, k) then Success(true)
      else AnyValueContains(values[1..], keyWord)
  }

  function IsFeatureWithDescription(feature: Option<Feature>, keyWord: Option<string>): (r: Result<bool, JavaException>)
    ensures r.Failure? ==> r.error == NullPointerException
    ensures feature.None? || feature.value.properties.None? ==> r == Success(false)
  {
    if feature.None? || feature.value.properties.None? then Success(false)
    else
      var values :- Deref(feature.value.properties.value.areaDescriptionData);
      if |values| == 0 then Success(false)
      else AnyValueContains(values, keyWord)
  }

  /** Reference for the loop: some value contains the keyword as a
      substring and every value before it is non-null. */
  ghost predicate FirstMatchReachable(values: seq<Option<string>>, keyWord: string)
  {
    exists i :: && 0 <= i < |values|
                && values[i].Some? && JavaStrings.IsSubstring(keyWord, values[i].value)
                && forall j :: 0 <= j < i ==> values[j].Some?
  }

  lemma {:induction false} AnyValueContainsTrueIff(values: seq<Option<string>>, keyWord: string)
    ensures AnyValueContains(values, Some(keyWord)) == Success(true) <==> FirstMatchReachable(values, keyWord)
  {
    if |values| > 0 {
      AnyValueContainsTrueIff(values[1..], keyWord);
      if values[0].Some? {
        JavaStrings.ContainsIffSubstring(values[0].value, keyWord);
        if FirstMatchReachable(values[1..], keyWord) {
          var i :| && 0 <= i < |values[1..]|
                   && values[1..][i].Some? && JavaStrings.IsSubstring(keyWord, values[1..][i].value)
                   && forall j :: 0 <= j < i ==> values[1..][j].Some?;
          assert values[i + 1] == values[1..][i];
          forall j | 0 <= j < i + 1
            ensures values[j].Some?
          {
            if j > 0 {
              assert values[j] == values[1..][j - 1];
            }
          }
        }
        if FirstMatchReachable(values, keyWord) && !JavaStrings.Contains(values[0].value, keyWord) {
          var i :| && 0 <= i < |values|
                   && values[i].Some? && JavaStrings.IsSubstring(keyWord, values[i].value)
                   && forall j :: 0 <= j < i ==> values[j].Some?;
          assert i > 0;
          assert values[1..][i - 1] == values[i];
          assert forall j :: 0 <= j < i - 1 ==> values[1..][j] == values[j + 1];
        }
      }
    }
  }

  lemma {:induction false} AnyValueContainsWithoutNulls(values: seq<Option<string>>, keyWord: string)
    requires forall i :: 0 <= i < |values| ==> values[i].Some?
    ensures AnyValueContains(values, Some(keyWord))
            == Success(exists i :: 0 <= i < |values| && JavaStrings.IsSubstring(keyWord, values[i].value))
  {
    if |values| > 0 {
      AnyValueContainsWithoutNulls(values[1..], keyWord);
      JavaStrings.ContainsIffSubstring(values[0].value, keyWord);
      assert forall i :: 1 <= i < |values| ==> values[i] == values[1..][i - 1];
    }
  }

  /** Reference for the loop throwing: a null value comes before any value
      containing the keyword. */
  ghost predicate NullBeforeMatch(values: seq<Option<string>>, keyWord: string)
  {
    exists i :: && 0 <= i < |values| && values[i].None?
                && forall j :: 0 <= j < i ==> values[j].Some? && !JavaStrings.IsSubstring(keyWord, values[j].value)
  }

  lemma {:induction false} AnyValueContainsThrowsIff(values: seq<Option<string>>, keyWord: string)
    ensures AnyValueContains(values, Some(keyWord)).Failure? <==> NullBeforeMatch(values, keyWord)
  {
    if |values| > 0 {
      AnyValueContainsThrowsIff(values[1..], keyWord);
      if values[0].Some? {
        JavaStrings.ContainsIffSubstring(values[0].value, keyWord);
        if NullBeforeMatch(values[1..], keyWord) && !JavaStrings.IsSubstring(keyWord, values[0].value) {
          var i :| && 0 <= i < |values[1..]| && values[1..][i].None?
                   && forall j :: 0 <= j < i ==> values[1..][j].Some? && !JavaStrings.IsSubstring(keyWord, values[1..][j].value);
          assert values[i + 1] == values[1..][i];
          forall j | 0 <= j < i + 1
            ensures values[j].Some? && !JavaStrings.IsSubstring(keyWord, values[j].value)
          {
            if j > 0 {
              assert values[j] == values[1..][j - 1];
            }
          }
        }
        if NullBeforeMatch(values, keyWord) {
          var i :| && 0 <= i < |values| && values[i].None?
                   && forall j :: 0 <= j < i ==> values[j].Some? && !JavaStrings.IsSubstring(keyWord, values[j].value);
          assert i > 0;
          assert !JavaStrings.IsSubstring(keyWord, values[0].value);
          assert values[1..][i - 1] == values[i];
          assert forall j :: 0 <= j < i - 1 ==> values[1..][j] == values[j + 1];
        }
      }
    }
  }

  /** With a non-null keyword the test throws iff the description map is
      null, or a null value comes before any value containing the keyword. */
  lemma WithDescriptionThrowsIff(feature: Option<Feature>, keyWord: string)
    ensures IsFeatureWithDescription(feature, Some(keyWord)).Failure?
            <==> && feature.Some? && feature.value.properties.Some?
                 && (|| feature.value.properties.value.areaDescriptionData.None?
                     || NullBeforeMatch(feature.value.properties.value.areaDescriptionData.value, keyWord))
  {
    if feature.Some? && feature.value.properties.Some? && feature.value.properties.value.areaDescriptionData.Some? {
      AnyValueContainsThrowsIff(feature.value.properties.value.areaDescriptionData.value, keyWord);
    }
  }

  /** Reference: the feature has properties and a description map in which
      the loop reaches a value containing the keyword. */
  ghost predicate DescriptionMatches(feature: Option<Feature>, keyWord: string)
  {
    && feature.Some? && feature.value.properties.Some?
    && feature.value.properties.value.areaDescriptionData.Some?
    && FirstMatchReachable(feature.value.properties.value.areaDescriptionData.value, keyWord)
  }

  /** A feature passes iff it has properties, a description map, and a value
      containing the keyword that the loop reaches before any null value. */
  lemma WithDescriptionIff(feature: Option<Feature>, keyWord: string)
    ensures IsFeatureWithDescription(feature, Some(keyWord)) == Success(true)
            <==> && feature.Some? && feature.value.properties.Some?
                 && feature.value.properties.value.areaDescriptionData.Some?
                 && FirstMatchReachable(feature.value.properties.value.areaDescriptionData.value, keyWord)
  {
    if feature.Some? && feature.value.properties.Some? && feature.value.properties.value.areaDescriptionData.Some? {
      AnyValueContainsTrueIff(feature.value.properties.value.areaDescriptionData.value, keyWord);
    }
  }

  /** With no null values the verdict is "some value contains the keyword";
      an empty map gives false. */
  lemma WithDescriptionWithoutNulls(feature: Option<Feature>, keyWord: string)
    requires feature.Some? && feature.value.properties.Some? && feature.value.properties.value.areaDescriptionData.Some?
    requires var values := feature.value.properties.value.areaDescriptionData.value;
             forall i :: 0 <= i < |values| ==> values[i].Some?
    ensures var values := feature.value.properties.value.areaDescriptionData.value;
            IsFeatureWithDescription(feature, Some(keyWord))
            == Success(exists i :: 0 <= i < |values| && JavaStrings.IsSubstring(keyWord, values[i].value))
  {
    AnyValueContainsWithoutNulls(feature.value.properties.value.areaDescriptionData.value, keyWord);
  }

  /** The empty keyword is in every string: a feature passes iff it has
      properties and a non-empty description map whose first value is non-null. */
  lemma WithDescriptionEmptyKeyword(feature: Option<Feature>)
    ensures IsFeatureWithDescription(feature, Some("")) == Success(true)
            <==> && feature.Some? && feature.value.properties.Some?
                 && feature.value.properties.value.areaDescriptionData.Some?
                 && |feature.value.properties.value.areaDescriptionData.value| > 0
                 && feature.value.properties.value.areaDescriptionData.value[0].Some?
  {
    if feature.Some? && feature.value.properties.Some? && feature.value.properties.value.areaDescriptionData.Some? {
      var values := feature.value.properties.value.areaDescriptionData.value;
      if |values| > 0 && values[0].Some? {
        JavaStrings.ContainsEmpty(values[0].value);
      }
    }
  }

  /** A null description map is dereferenced by `isEmpty()` and throws. */
  lemma NullDescriptionMapThrows(feature: Option<Feature>, keyWord: Option<string>)
    requires feature.Some? && feature.value.properties.Some?
    requires feature.value.properties.value.areaDescriptionData.None?
    ensures IsFeatureWithDescription(feature, keyWord) == Failure(NullPointerException)
  {
  }

  /** A null keyword throws as soon as one description is compared. */
  lemma NullKeywordThrows(feature: Option<Feature>)
    ensures IsFeatureWithDescription(feature, None).Success?
            <==> || feature.None? || feature.value.properties.None?
                 || (&& feature.value.properties.value.areaDescriptionData.Some?
                     && |feature.value.properties.value.areaDescriptionData.value| == 0)
  {
  }

  function WithDescriptionTest(keyWord: Option<string>): Option<Feature> -> Result<bool, JavaException>
  {
    feature => IsFeatureWithDescription(feature, keyWord)
  }

  /** `filterKeyWords(keyWord)`. */
  function FilterKeyWords(obj: GeoJSONObject, keyWord: Option<string>): (r: Result<GeoJSONObject, JavaException>)
    ensures r.Success? ==> obj.features.Some? && r.value.features.Some?
    ensures r.Success? ==> r.value.kind == obj.kind
    ensures r.Success? ==> |r.value.features.value| <= |obj.features.value|
  {
    match obj.features
    case None => Failure(NullPointerException)
    case Some(features) =>
      var kept :- StreamFilter.TryFilter(WithDescriptionTest(keyWord), features);
      Success(GeoJSONObject(obj.kind, Some(kept)))
  }

  /** `filterKeyWords` completes iff the list is non-null and no feature's
      test throws; otherwise the exception is a NullPointerException. */
  lemma FilterKeyWordsSucceedsIff(obj: GeoJSONObject, keyWord: Option<string>)
    ensures var r := FilterKeyWords(obj, keyWord);
            && (r.Success? <==> obj.features.Some? && forall i :: 0 <= i < |obj.features.value| ==>
                  IsFeatureWithDescription(obj.features.value[i], keyWord).Success?)
            && (r.Failure? ==> r.error == NullPointerException)
  {
    var test := WithDescriptionTest(keyWord);
    if obj.features.Some? {
      StreamFilter.TryFilterSucceedsIff(test, obj.features.value);
      if StreamFilter.TryFilter(test, obj.features.value).Failure? {
        StreamFilter.TryFilterFirstFailure(test, obj.features.value);
      }
    }
  }

  /** The kept features are, in input order, exactly those with a reachable
      description containing the keyword. */
  lemma FilterKeyWordsKeepsExactly(obj: GeoJSONObject, keyWord: string)
    requires FilterKeyWords(obj, Some(keyWord)).Success?
    ensures var kept := FilterKeyWords(obj, Some(keyWord)).value.features.value;
            && StableFilter.IsSubsequence(kept, obj.features.value)
            && (forall f :: f in kept <==> f in obj.features.value && DescriptionMatches(f, keyWord))
            && (forall f :: multiset(kept)[f] ==
                  if DescriptionMatches(f, keyWord) then multiset(obj.features.value)[f] else 0)
  {
    var test := WithDescriptionTest(Some(keyWord));
    StreamFilter.TryFilterIsFilter(test, obj.features.value);
    StableFilter.FilterIsSubsequence(StreamFilter.Passes(test), obj.features.value);
    StableFilter.FilterMembers(StreamFilter.Passes(test), obj.features.value);
    StableFilter.FilterMultiplicity(StreamFilter.Passes(test), obj.features.value);
    forall f
      ensures StreamFilter.Passes(test)(f) <==> DescriptionMatches(f, keyWord)
    {
      WithDescriptionIff(f, keyWord);
    }
  }

  /** Filtering the result again by the same keyword returns it unchanged. */
  lemma FilterKeyWordsIdempotent(obj: GeoJSONObject, keyWord: Option<string>)
    requires FilterKeyWords(obj, keyWord).Success?
    ensures var r := FilterKeyWords(obj, keyWord).value;
            FilterKeyWords(r, keyWord) == Success(r)
  {
    var test := WithDescriptionTest(keyWord);
    var kept := FilterKeyWords(obj, keyWord).value.features.value;
    StreamFilter.TryFilterIsFilter(test, obj.features.value);
    StreamFilter.TryFilterSucceedsIff(test, kept);
    StreamFilter.TryFilterIsFilter(test, kept);
    StableFilter.FilterIdempotent(StreamFilter.Passes(test), obj.features.value);
  }
}

=== FILE: stable_filter.dfy ===
/** The stable filter both cores are built on: JavaScript's
    `Array.prototype.filter` and a sequential Java `stream().filter(..).collect(..)`
    with a predicate that does not throw. */
module StableFilter {

  /** `a` can be obtained from `b` by deleting elements, keeping the order. */
  ghost predicate IsSubsequence<T>(a: seq<T>, b: seq<T>)
    decreases |b|
  {
    || |a| == 0
    || (&& |b| > 0
        && ((a[0] == b[0] && IsSubsequence(a[1..], b[1..])) || IsSubsequence(a, b[1..])))
  }

  /** The elements of `s` satisfying `p`, in their original order. */
  function Filter<T>(p: T -> bool, s: seq<T>): (r: seq<T>)
    ensures |r| <= |s|
    ensures forall i :: 0 <= i < |r| ==> p(r[i])
    ensures forall x :: x in r ==> x in s
  {
    if |s| == 0 then []
    else if p(s[0]) then [s[0]] + Filter(p, s[1..])
    else Filter(p, s[1..])
  }

  /** The output never reorders or invents elements. */
  lemma {:induction false} FilterIsSubsequence<T>(p: T -> bool, s: seq<T>)
    ensures IsSubsequence(Filter(p, s), s)
  {
    if |s| > 0 {
      FilterIsSubsequence(p, s[1..]);
      var t := Filter(p, s[1..]);
      if p(s[0]) {
        assert ([s[0]] + t)[0] == s[0];
        assert ([s[0]] + t)[1..] == t;
      }
    }
  }

  /** An element occurs in the output iff it occurs in the input and passes. */
  lemma {:induction false} FilterMembers<T>(p: T -> bool, s: seq<T>)
    ensures forall x :: x in Filter(p, s) <==> x in s && p(x)
  {
    if |s| > 0 {
      FilterMembers(p, s[1..]);
      assert s == [s[0]] + s[1..];
      forall x | x in s && p(x)
        ensures x in Filter(p, s)
      {
        if x != s[0] {
          assert x in s[1..];
        }
      }
    }
  }

  /** Exact characterisation with multiplicity: every passing occurrence is kept
      exactly once, every failing one is dropped. */
  lemma {:induction false} FilterMultiplicity<T>(p: T -> bool, s: seq<T>)
    ensures forall x :: multiset(Filter(p, s))[x] == if p(x) then multiset(s)[x] else 0
  {
    if |s| > 0 {
      FilterMultiplicity(p, s[1..]);
      assert s == [s[0]] + s[1..];
      assert multiset(s) == multiset{s[0]} + multiset(s[1..]);
      if p(s[0]) {
        assert multiset(Filter(p, s)) == multiset{s[0]} + multiset(Filter(p, s[1..]));
      }
    }
  }

  /** A sequence whose every element passes is returned unchanged. */
  lemma {:induction false} FilterKeepsAll<T>(p: T -> bool, s: seq<T>)
    requires forall i :: 0 <= i < |s| ==> p(s[i])
    ensures Filter(p, s) == s
  {
    if |s| > 0 {
      assert p(s[0]);
      FilterKeepsAll(p, s[1..]);
      assert [s[0]] + s[1..] == s;
    }
  }

  /** A sequence none of whose elements passes filters to nothing. */
  lemma {:induction false} FilterKeepsNone<T>(p: T -> bool, s: seq<T>)
    requires forall i :: 0 <= i < |s| ==> !p(s[i])
    ensures Filter(p, s) == []
  {
    if |s| > 0 {
      assert !p(s[0]);
      FilterKeepsNone(p, s[1..]);
    }
  }

  /** Filtering twice with the same predicate narrows nothing further. */
  lemma FilterIdempotent<T>(p: T -> bool, s: seq<T>)
    ensures Filter(p, Filter(p, s)) == Filter(p, s)
  {
    FilterKeepsAll(p, Filter(p, s));
  }

  /** A weaker predicate keeps a supersequence of what a stronger one keeps. */
  lemma {:induction false} FilterMonotone<T>(p: T -> bool, q: T -> bool, s: seq<T>)
    requires forall i :: 0 <= i < |s| && p(s[i]) ==> q(s[i])
    ensures IsSubsequence(Filter(p, s), Filter(q, s))
  {
    if |s| > 0 {
      FilterMonotone(p, q, s[1..]);
      var a, b := Filter(p, s[1..]), Filter(q, s[1..]);
      if p(s[0]) {
        assert q(s[0]);
        assert ([s[0]] + a)[0] == ([s[0]] + b)[0];
        assert ([s[0]] + a)[1..] == a && ([s[0]] + b)[1..] == b;
      } else if q(s[0]) {
        assert ([s[0]] + b)[1..] == b;
      }
    }
  }

  /** Predicates that agree on the input give the same output. */
  lemma {:induction false} FilterExtensional<T>(p: T -> bool, q: T -> bool, s: seq<T>)
    requires forall i :: 0 <= i < |s| ==> p(s[i]) == q(s[i])
    ensures Filter(p, s) == Filter(q, s)
  {
    if |s| > 0 {
      assert p(s[0]) == q(s[0]);
      FilterExtensional(p, q, s[1..]);
    }
  }
}

=== FILE: stream_filter.dfy ===
/** A sequential Java `stream().filter(test).collect(toList())` whose `test`
    may throw: elements are tested in encounter order and the first exception
    escapes, discarding everything collected so far. */
module StreamFilter {
  import opened Results
  import StableFilter

  function TryFilter<T, E>(test: T -> Result<bool, E>, s: seq<T>): (r: Result<seq<T>, E>)
    ensures r.Success? ==> |r.value| <= |s|
  {
    if |s| == 0 then Success([])
    else
      var keep :- test(s[0]);
      var rest :- TryFilter(test, s[1..]);
      Success(if keep then [s[0]] + rest else rest)
  }

  /** The elements a non-throwing test keeps. */
  function Passes<T, E>(test: T -> Result<bool, E>): T -> bool
  {
    x => test(x).Success? && test(x).value
  }

  /** The collection completes iff no element's test throws. */
  lemma {:induction false} TryFilterSucceedsIff<T, E>(test: T -> Result<bool, E>, s: seq<T>)
    ensures TryFilter(test, s).Success? <==> forall i :: 0 <= i < |s| ==> test(s[i]).Success?
  {
    if |s| > 0 {
      TryFilterSucceedsIff(test, s[1..]);
      assert forall i :: 1 <= i < |s| ==> s[i] == s[1..][i - 1];
    }
  }

  /** When it completes, the result is the stable filter by the tests' answers. */
  lemma {:induction false} TryFilterIsFilter<T, E>(test: T -> Result<bool, E>, s: seq<T>)
    requires TryFilter(test, s).Success?
    ensures TryFilter(test, s).value == StableFilter.Filter(Passes(test), s)
  {
    if |s| > 0 {
      TryFilterIsFilter(test, s[1..]);
    }
  }

  /** When it throws, the exception is that of the first element whose test throws. */
  lemma {:induction false} TryFilterFirstFailure<T, E>(test: T -> Result<bool, E>, s: seq<T>)
    requires TryFilter(test, s).Failure?
    ensures exists i :: && 0 <= i < |s|
                         && test(s[i]) == Failure(TryFilter(test, s).error)
                         && forall j :: 0 <= j < i ==> test(s[j]).Success?
  {
    if test(s[0]).Failure? {
      assert test(s[0]) == Failure(TryFilter(test, s).error);
    } else {
      TryFilterFirstFailure(test, s[1..]);
      var i :| && 0 <= i < |s[1..]|
                && test(s[1..][i]) == Failure(TryFilter(test, s[1..]).error)
                && forall j :: 0 <= j < i ==> test(s[1..][j]).Success?;
      assert test(s[i + 1]) == Failure(TryFilter(test, s).error);
      forall j | 0 <= j < i + 1
        ensures test(s[j]).Success?
      {
        if j > 0 {
          assert s[j] == s[1..][j - 1];
        }
      }
    }
  }
}
